=== FILE: README.md ===
# Tutorial-round trading agent, modelled in Dafny

This project models the decision and telemetry logic of a trading agent for a
simulated exchange (`rounds/tutorial.py`). On every tick the agent receives a
`TradingState` snapshot. It then does four things:

- For each symbol that has an order book in the tick and a registered product,
  it refreshes that product's position from the tick. A registered product
  without a book keeps its old position.
- It lets the `RAINFOREST_RESIN` policy take liquidity against a fixed fair
  price of 10000. It lets `KELP` do nothing.
- It returns the orders keyed by symbol, with conversions `1` and empty trader
  data.
- It flushes a size-capped telemetry line: the compressed state, the compressed
  orders, conversions, trader data and the debug log. The three free-text fields
  are each truncated to a third of what the structural baseline leaves of a
  3750-character ceiling.

Python dicts are modelled as insertion-ordered sequences of `(key, value)`
pairs (`Dicts.Dict`). That way the order-preservation promises can be stated.
`d[k] = v` becomes `Dicts.Put`: an existing key keeps its place, and a new key is
appended. The module-level `logger` and the class-level `products` registry are
threaded explicitly as values (`Logging.Logger`, `Trader.Registry`).

Modules:

- `Wrappers`: `Option`.
- `Seqs`: flatten, min and max.
- `Dicts`: ordered dicts.
- `Text`: `str(int)` and `sep.join`.
- `DataModel`: the exchange records.
- `Codec`: the `compress_*` functions and their decoders.
- `Logging`: `print`, `truncate` and `flush`.
- `Products`: the position refresh and the market-taking policy.
- `ProductScenarios`: worked ticks.
- `Trader`: `run`.

The code does not skip non-positive quantities, does not guard a missing book
and does not isolate failures per symbol. The model follows the code:

- The code emits the buy or sell order even when its quantity is zero or
  negative. `ProductScenarios.ZeroQuantityStillEmitted`
  shows a zero-quantity buy at the limit.
- `RainforestResin.trade` indexes `state.order_depths[self.id]` without a guard.
  An absent book raises `KeyError` instead of meaning "no liquidity". So
  `Products.Decide` requires the book (`CanDecide`). `run` only calls it for
  symbols present in the book mapping, which the model proves meets that
  requirement.
- `run` does not isolate failures per symbol and returns `""` as trader data.
- `truncate` uses Python slicing, where a negative stop counts from the end.
  The exact-length promise therefore holds only for a share of at least 3
  characters. Below that, the result is longer than the share
  (`Logging.TruncateOverrunsSmallBudget`). No guard stops an oversized line.

## Model

| member | source | states |
|---|---|---|
| Dicts.Keys | rounds/tutorial.py:198 | `d.keys()` lists one key per entry, in insertion order |
| Dicts.Values | rounds/tutorial.py:72 | `d.values()` lists one value per entry, in insertion order |
| Dicts.Put | rounds/tutorial.py:66 | dict assignment keeps the key order and appends a new key at the end |
| Dicts.PutGet | rounds/tutorial.py:201 | after `d[k] = v`, `d[k]` is `v` and every other key's lookup is unchanged |
| Dicts.PutDistinct | rounds/tutorial.py:201 | assignment never duplicates a key |
| Dicts.Get | rounds/tutorial.py:132-135 | `k in d` holds exactly when lookup finds a value, and the value found is stored under `k` |
| Dicts.Lookup | rounds/tutorial.py:159 | `d[k]` for a present key is a value stored under `k` in the dict |
| Dicts.GetAt | rounds/tutorial.py:201 | in a dict with distinct keys, looking up a stored key gives the value stored with it |
| Dicts.MapValues | rounds/tutorial.py:63-68 | re-inserting every item of a dict under the same key keeps the keys in order, each with its transformed value |
| Seqs.MinOf | rounds/tutorial.py:158 | `min(keys)` is one of the keys and no key is smaller |
| Seqs.MaxOf | rounds/tutorial.py:168 | `max(keys)` is one of the keys and no key is larger |
| Seqs.Min | rounds/tutorial.py:162 | `min(a, b)` is at most both arguments and equal to one of them |
| Seqs.FlatMap | rounds/tutorial.py:102-108 | a nested loop's output: entry k is `f` of the k-th element of the concatenated inner lists |
| Text.IntToStringRoundTrip | rounds/tutorial.py:163 | the decimal text of a logged quantity or price (built with `IntToString` in `Products.OrderLine`) parses back to the same integer |
| Text.IntToString | rounds/tutorial.py:163 | `str(i)` starts with a minus sign exactly when `i` is negative; after the sign come one or more decimal digits only, with no leading zero unless the number is 0 |
| Text.Join | rounds/tutorial.py:12 | `sep.join` has the parts' total length plus one separator between each pair; part i sits at the offset of the earlier parts and separators, and a separator follows every part but the last |
| Codec.CompressListings | rounds/tutorial.py:56-61 | one positional triple per listing, in dict order |
| Codec.ListingsRoundTrip | rounds/tutorial.py:56-61 | decoding the triples gives back exactly the listings, in order |
| Codec.CompressOrderDepths | rounds/tutorial.py:63-68 | same symbols in the same order, each mapped to its unchanged (bids, asks) pair |
| Codec.OrderDepthsRoundTrip | rounds/tutorial.py:63-68 | order-book compression is lossless: decoding reproduces the book mapping exactly |
| Codec.CompressTrades | rounds/tutorial.py:70-85 | output length is the total trade count; entry k is the 6 fields of the k-th trade across all symbols |
| Codec.TradesRoundTrip | rounds/tutorial.py:70-85 | decoding gives the concatenation of every symbol's trade list |
| Codec.CompressObservations | rounds/tutorial.py:87-100 | plain values untouched; conversion observations keep their products in order, each as its 7 fields |
| Codec.ObservationsRoundTrip | rounds/tutorial.py:87-100 | observation compression is lossless |
| Codec.CompressOrders | rounds/tutorial.py:102-108 | output length is the total order count; entry k is (symbol, price, quantity) of the k-th order across all symbols |
| Codec.OrdersRoundTrip | rounds/tutorial.py:102-108 | decoding gives the concatenation of every symbol's order list |
| Codec.CompressState | rounds/tutorial.py:44-54 | the 8-tuple carries the timestamp first, the given trader data second, the positions seventh; listings, order books, both trade lists and observations decode back from their fields |
| Codec.CompressStateTraderDataOnly | rounds/tutorial.py:44-54 | the trader-data argument affects only the second field |
| Logging.NewLogger | rounds/tutorial.py:7-9 | a new logger has an empty buffer and a ceiling of 3750 characters |
| Logging.Print | rounds/tutorial.py:11-12 | the buffer keeps its old text as a prefix, then holds exactly `sep.join(objects)`, then `end` |
| Logging.Log | rounds/tutorial.py:163 | a one-message print appends the message and a newline |
| Logging.LogIsPrint | rounds/tutorial.py:11-12 | `Log` is `print` of one object with the default `sep` and `end` |
| Logging.SlicePrefix | rounds/tutorial.py:117 | `value[:stop]` is a prefix of `value` of the length Python slicing gives, negative stops included |
| Logging.Truncate | rounds/tutorial.py:113-117 | short values are unchanged; longer ones end in "...", keep a prefix of the value, and have exactly the share's length when the share is at least 3 |
| Logging.TruncateFits | rounds/tutorial.py:113-117 | with a share of at least 3, the result has length min(len(value), share) |
| Logging.TruncateOverrunsSmallBudget | rounds/tutorial.py:113-117 | with a share below 3, any longer value, the empty one included, is truncated to something longer than the share |
| Logging.ItemBudget | rounds/tutorial.py:28 | the share is the floor of a third of the remaining budget: 3·m ≤ budget < 3·m + 3 |
| Logging.BaseEnvelope | rounds/tutorial.py:15-25 | the baseline envelope has the state compressed with empty trader data, the compressed orders, the conversions, and two empty text fields |
| Logging.Flush | rounds/tutorial.py:14-42 | the buffer is empty afterwards; the line differs from the baseline envelope only in the three text fields, each truncated to the same share |
| Logging.FlushTextWithinBudget | rounds/tutorial.py:27-40 | with a share of at least 3, the three text fields together fit in what the baseline leaves of the ceiling |
| Products.Update | rounds/tutorial.py:130-135 | position becomes the tick's entry for the symbol, or 0 when absent; kind, limit and id unchanged |
| Products.NewRainforestResin | rounds/tutorial.py:143-144 | a fresh RAINFOREST_RESIN product is flat and has a position limit of 50 |
| Products.NewKelp | rounds/tutorial.py:179-180 | a fresh KELP product is flat and has a position limit of 50 |
| Products.BuySide | rounds/tutorial.py:156-164 | a buy exists iff some ask is below 10000; it is at the best ask, for min(ask size, limit − position), so a position at most the limit stays at most the limit |
| Products.SellSide | rounds/tutorial.py:166-174 | a sell exists iff some bid is above 10000; it is at the best bid, for −min(bid size, limit + position), so a position at least −limit stays at least −limit |
| Products.Decide | rounds/tutorial.py:146-186 | KELP proposes nothing; RESIN proposes one order per firing side, the buy side's order first and the sell side's order last, so both appear when both fire and none when neither does; every order is for the product's symbol |
| Products.Trade | rounds/tutorial.py:146-186 | the position is refreshed before deciding; the buffer gains exactly one line per proposed order, in order ("Buying q id @ price" for the buy, "Selling q id @ price" with the positive size for the sell) |
| Products.LogSides | rounds/tutorial.py:163-173 | logging the buy line, if any, then the sell line, if any, appends exactly the order lines of the buy followed by the sell |
| Products.OrderLinesOfSides | rounds/tutorial.py:156-174 | the lines for a buy side then a sell side are the buy's line followed by the sell's |
| Products.BuyMessage | rounds/tutorial.py:163 | the buy message starts with "Buying " and the order's size in decimal, and ends with its price in decimal; its length is that of the four fields with their separators |
| Products.SellMessage | rounds/tutorial.py:173 | the sell message starts with "Selling " and the positive size (the negation of the order's quantity) in decimal, and ends with its price in decimal |
| Products.OrderLine | rounds/tutorial.py:163-173 | an order's logged line ends in a newline; it is the buy message for an order below the fair price and the sell message otherwise |
| Products.LogBuy | rounds/tutorial.py:163 | logging a buy appends exactly its order line and nothing when there is no buy; the ceiling is unchanged |
| Products.LogSell | rounds/tutorial.py:173 | logging a sell appends exactly its order line and nothing when there is no sell; the ceiling is unchanged |
| Products.LogDecision | rounds/tutorial.py:156-174 | a RAINFOREST_RESIN decision appends exactly the order lines of the orders `Decide` proposes, in order |
| Products.WorstCaseFillWithinLimit | rounds/tutorial.py:156-174 | from a position within ±limit and a well-formed book, even if every order fills, the position stays within ±limit |
| ProductScenarios.BuyCheapAsk | rounds/tutorial.py:156-164 | an ask of 5 at 9998 from a flat position gives a buy of 5 at 9998 |
| ProductScenarios.SellRichBid | rounds/tutorial.py:166-174 | a bid of 8 at 10002 from position 45 gives a sell of 8 at 10002 |
| ProductScenarios.BuyClippedToHeadroom | rounds/tutorial.py:162 | an ask of 10 from position 48 gives a buy of 2 |
| ProductScenarios.ZeroQuantityStillEmitted | rounds/tutorial.py:161-164 | at the limit, a buy of quantity 0 is still emitted |
| ProductScenarios.EmptyBookNoOrders | rounds/tutorial.py:156-176 | an empty book yields no orders |
| ProductScenarios.MalformedBidBreaksBound | rounds/tutorial.py:166-174 | with a negative bid size the sell becomes a buy, and the worst-case long position exceeds the limit |
| Trader.Known | rounds/tutorial.py:198-200 | a symbol is in it iff it is visited and registered, and distinct visits give distinct entries |
| Trader.KnownKeepsOrder | rounds/tutorial.py:198-200 | visiting order is kept: the known symbols of the first n visited are the start of the known symbols of all of them |
| Trader.Dispatch | rounds/tutorial.py:198-201 | every product stays registered under its own symbol; logging only appends |
| Trader.DispatchRefreshesVisited | rounds/tutorial.py:198-201 | the registry keeps its keys; exactly the visited products have their positions refreshed |
| Trader.DispatchCollectsKnown | rounds/tutorial.py:198-201 | the result's keys are the visited symbols that have a registered product, in visiting order |
| Trader.DispatchCollectsOrders | rounds/tutorial.py:198-201 | the result's keys are the visited registered symbols in visiting order, each holding that product's orders |
| Trader.DispatchLastStep | rounds/tutorial.py:200-201 | a visited registered symbol appends its entry at the end; an unregistered one adds nothing |
| Trader.DispatchCollectsOrdersKeys | rounds/tutorial.py:201 | only visited symbols become keys of the result |
| Trader.TradeGivesExpected | rounds/tutorial.py:200-201 | a registered product under a symbol with a book can trade, and yields the orders of its refreshed self |
| Trader.Run | rounds/tutorial.py:195-207 | result keys are the book symbols that are registered, in book order, each with its product's orders; conversions 1, trader data "", empty log buffer; the flushed line has the baseline's structure, the tick's trader data truncated to the share, `""` truncated to the share as outgoing trader data, and the old buffer plus every visit's lines truncated to the share as debug text |
| Trader.DispatchLogs | rounds/tutorial.py:198-201 | the loop appends, per visited symbol, "Processing product: symbol" and then the order lines of its registered product |
| Trader.DispatchLogStep | rounds/tutorial.py:199-201 | one visit appends exactly that symbol's lines |
| Trader.TradeLogsExpected | rounds/tutorial.py:200-201 | a registered product with a book logs exactly its expected orders' lines |
| Trader.RunRestoresLogger | rounds/tutorial.py:7-9 | after every tick the logger is as first created: empty buffer, ceiling 3750 |
| Trader.InitialRegistryWellFormed | rounds/tutorial.py:190-193 | the registry holds each product under its own symbol, once |
| Trader.InitialRegistry | rounds/tutorial.py:190-193 | the registry is RAINFOREST_RESIN then KELP, each flat with limit 50 and stored under its own symbol |
| Trader.KnownInInitialRegistry | rounds/tutorial.py:190-193 | against the agent's registry, a symbol is known iff it is RAINFOREST_RESIN or KELP |
| Trader.RunSkipsUnregistered | rounds/tutorial.py:190-201 | with the agent's registry, the result's keys are exactly the tick's book symbols that are RAINFOREST_RESIN or KELP |
| Trader.ExpectedOrdersWithinLimits | rounds/tutorial.py:156-174 | one registered symbol's orders respect its limit in the worst case |
| Trader.CollectedOrdersWithinLimits | rounds/tutorial.py:198-201 | every collected symbol's orders respect its limit in the worst case |
| Trader.RunWithinLimits | rounds/tutorial.py:195-207 | for a whole tick with well-formed books and positions within limits, no symbol's orders can breach its limit |

## Left out

- JSON encoding (`to_json`, `json.dumps`, `ProsperityEncoder`, lines 110-111): the encoder is not part of this model. `Flush` takes the encoded length of an envelope as a function parameter. Because JSON escaping changes lengths, no exact emitted length is claimed.
- The stdout `print` at line 30 is I/O. `Flush` returns the envelope it would print instead.
- The `datamodel` classes are not part of this model. Only the fields used here are modelled. `Trade.buyer`/`seller` are strings, and the host may deliver `None`.
- Observation values that the host may deliver as floats are `real` and are only copied.
- `print`'s `map(str, objects)` over arbitrary objects: the objects are taken as already-rendered strings. Only `str` of an integer, as used in the f-strings, is modelled (`Text.IntToString`).
- `Product.trade` (lines 138-140), the base-class placeholder that returns `[]` without refreshing: no registered product uses it.
- `numpy` is imported but unused.
- Codec.ListingsRoundTrip: `compress_listings` drops the dict keys, so the round trip recovers the listings' values only.
- Trader.Run: requires the book mapping's keys to be distinct and the registry to hold each product under its own symbol. Both always hold for Python dicts and the agent's registry.

=== FILE: codec.dfy ===
/** The telemetry compression: every record becomes a positional tuple
    instead of a keyed object, and per-symbol lists are flattened in order. */
module Codec {
  import opened Seqs
  import opened Dicts
  import opened DataModel

  type CompressedListing = (Symbol, string, string)
  type CompressedDepth = (Dict<int, int>, Dict<int, int>)
  type CompressedTrade = (Symbol, int, int, string, string, int)
  type CompressedOrder = (Symbol, int, int)
  type CompressedConversion = (real, real, real, real, real, real, real)
  type CompressedObservations = (Dict<string, int>, Dict<string, CompressedConversion>)

  /** timestamp, trader data, listings, order depths, own trades, market trades,
      position, observations. */
  type CompressedState = (
    int, string, seq<CompressedListing>, Dict<Symbol, CompressedDepth>,
    seq<CompressedTrade>, seq<CompressedTrade>, Dict<Symbol, int>, CompressedObservations)

  function ListingFields(l: Listing): CompressedListing {
    (l.symbol, l.product, l.denomination)
  }

  function DepthFields(d: OrderDepth): CompressedDepth {
    (d.buyOrders, d.sellOrders)
  }

  function TradeFields(t: Trade): CompressedTrade {
    (t.symbol, t.price, t.quantity, t.buyer, t.seller, t.timestamp)
  }

  function OrderFields(o: Order): CompressedOrder {
    (o.symbol, o.price, o.quantity)
  }

  function ConversionFields(c: ConversionObservation): CompressedConversion {
    (c.bidPrice, c.askPrice, c.transportFees, c.exportTariff, c.importTariff, c.sugarPrice, c.sunlightIndex)
  }

  /** One positional triple per listing, in the dict's order (the keys are dropped). */
  function CompressListings(listings: Dict<Symbol, Listing>): (r: seq<CompressedListing>)
    ensures |r| == |listings|
    ensures forall i :: 0 <= i < |r| ==> r[i] == ListingFields(listings[i].1)
  {
    if |listings| == 0 then []
    else CompressListings(listings[..|listings| - 1]) + [ListingFields(listings[|listings| - 1].1)]
  }

  /** Same symbols in the same order, each mapped to its raw (bids, asks) pair. */
  function CompressOrderDepths(depths: Dict<Symbol, OrderDepth>): (r: Dict<Symbol, CompressedDepth>)
    ensures DistinctKeys(depths) ==> Keys(r) == Keys(depths)
    ensures DistinctKeys(depths) ==> forall i :: 0 <= i < |r| ==> r[i].1 == DepthFields(depths[i].1)
  {
    MapValues(depths, DepthFields)
  }

  /** All trades of all symbols, symbol after symbol, each as a 6-tuple. */
  function CompressTrades(trades: Dict<Symbol, seq<Trade>>): (r: seq<CompressedTrade>)
    ensures |r| == SumLengths(Values(trades))
    ensures forall k :: 0 <= k < |r| ==> r[k] == TradeFields(Flatten(Values(trades))[k])
  {
    FlatMap(Values(trades), TradeFields)
  }

  /** Plain values untouched, each conversion observation as a 7-tuple under its product. */
  function CompressObservations(obs: Observation): (r: CompressedObservations)
    ensures r.0 == obs.plainValueObservations
    ensures DistinctKeys(obs.conversionObservations) ==> Keys(r.1) == Keys(obs.conversionObservations)
    ensures DistinctKeys(obs.conversionObservations) ==>
      forall i :: 0 <= i < |r.1| ==> r.1[i].1 == ConversionFields(obs.conversionObservations[i].1)
  {
    (obs.plainValueObservations, MapValues(obs.conversionObservations, ConversionFields))
  }

  /** All orders of all symbols, symbol after symbol, each as a triple. */
  function CompressOrders(orders: Dict<Symbol, seq<Order>>): (r: seq<CompressedOrder>)
    ensures |r| == SumLengths(Values(orders))
    ensures forall k :: 0 <= k < |r| ==> r[k] == OrderFields(Flatten(Values(orders))[k])
  {
    FlatMap(Values(orders), OrderFields)
  }

  /** The 8-tuple for a tick, with `traderData` standing in for the tick's own string. */
  function CompressState(state: TradingState, traderData: string): (r: CompressedState)
    ensures r.0 == state.timestamp && r.1 == traderData && r.6 == state.position
    ensures DecompressListings(r.2) == Values(state.listings)
    ensures DistinctKeys(state.orderDepths) ==> DecompressOrderDepths(r.3) == state.orderDepths
    ensures DecompressTrades(r.4) == Flatten(Values(state.ownTrades))
    ensures DecompressTrades(r.5) == Flatten(Values(state.marketTrades))
    ensures DistinctKeys(state.observations.conversionObservations) ==> DecompressObservations(r.7) == state.observations
  {
    ListingsRoundTrip(state.listings);
    TradesRoundTrip(state.ownTrades);
    TradesRoundTrip(state.marketTrades);
    assert DistinctKeys(state.orderDepths) ==>
      DecompressOrderDepths(CompressOrderDepths(state.orderDepths)) == state.orderDepths by {
      if DistinctKeys(state.orderDepths) {
        OrderDepthsRoundTrip(state.orderDepths);
      }
    }
    assert DistinctKeys(state.observations.conversionObservations) ==>
      DecompressObservations(CompressObservations(state.observations)) == state.observations by {
      if DistinctKeys(state.observations.conversionObservations) {
        ObservationsRoundTrip(state.observations);
      }
    }
    (state.timestamp,
     traderData,
     CompressListings(state.listings),
     CompressOrderDepths(state.orderDepths),
     CompressTrades(state.ownTrades),
     CompressTrades(state.marketTrades),
     state.position,
     CompressObservations(state.observations))
  }

  // Decoders: each rebuilds the records from their positional form.

  function DecompressListings(c: seq<CompressedListing>): (r: seq<Listing>)
    ensures |r| == |c|
  {
    seq(|c|, i requires 0 <= i < |c| => Listing(c[i].0, c[i].1, c[i].2))
  }

  function DecompressOrderDepths(c: Dict<Symbol, CompressedDepth>): (r: Dict<Symbol, OrderDepth>)
    ensures |r| == |c|
  {
    seq(|c|, i requires 0 <= i < |c| => (c[i].0, OrderDepth(c[i].1.0, c[i].1.1)))
  }

  function DecompressTrades(c: seq<CompressedTrade>): (r: seq<Trade>)
    ensures |r| == |c|
  {
    seq(|c|, i requires 0 <= i < |c| => Trade(c[i].0, c[i].1, c[i].2, c[i].3, c[i].4, c[i].5))
  }

  function DecompressOrders(c: seq<CompressedOrder>): (r: seq<Order>)
    ensures |r| == |c|
  {
    seq(|c|, i requires 0 <= i < |c| => Order(c[i].0, c[i].1, c[i].2))
  }

  function DecompressObservations(c: CompressedObservations): (r: Observation)
  {
    var conv := c.1;
    Observation(c.0, seq(|conv|, i requires 0 <= i < |conv| =>
      (conv[i].0, ConversionObservation(conv[i].1.0, conv[i].1.1, conv[i].1.2, conv[i].1.3,
                                        conv[i].1.4, conv[i].1.5, conv[i].1.6))))
  }

  /** Listings keep every field, in dict order. */
  lemma ListingsRoundTrip(listings: Dict<Symbol, Listing>)
    ensures DecompressListings(CompressListings(listings)) == Values(listings)
  {
  }

  /** Order books are kept exactly: same symbols, same order, same price levels. */
  lemma OrderDepthsRoundTrip(depths: Dict<Symbol, OrderDepth>)
    requires DistinctKeys(depths)
    ensures DecompressOrderDepths(CompressOrderDepths(depths)) == depths
  {
    var c := CompressOrderDepths(depths);
    var r := DecompressOrderDepths(c);
    forall i | 0 <= i < |depths| ensures r[i] == depths[i] {
      assert c[i].0 == Keys(c)[i] == Keys(depths)[i];
    }
  }

  /** The flattened trades are exactly the trades of every symbol, concatenated. */
  lemma TradesRoundTrip(trades: Dict<Symbol, seq<Trade>>)
    ensures DecompressTrades(CompressTrades(trades)) == Flatten(Values(trades))
  {
  }

  /** The flattened orders are exactly the orders of every symbol, concatenated. */
  lemma OrdersRoundTrip(orders: Dict<Symbol, seq<Order>>)
    ensures DecompressOrders(CompressOrders(orders)) == Flatten(Values(orders))
  {
  }

  /** Observations are kept exactly. */
  lemma ObservationsRoundTrip(obs: Observation)
    requires DistinctKeys(obs.conversionObservations)
    ensures DecompressObservations(CompressObservations(obs)) == obs
  {
    var c := CompressObservations(obs).1;
    var conv := obs.conversionObservations;
    var r := DecompressObservations(CompressObservations(obs)).conversionObservations;
    forall i | 0 <= i < |conv| ensures r[i] == conv[i] {
      assert c[i].0 == Keys(c)[i] == Keys(conv)[i];
    }
  }

  /** The trader-data argument only ever lands in the second field. */
  lemma CompressStateTraderDataOnly(state: TradingState, a: string, b: string)
    ensures CompressState(state, a).(1 := b) == CompressState(state, b)
  {
  }
}

=== FILE: datamodel.dfy ===
/** The exchange's record types, reduced to the fields the agent reads or logs.
    Values the host may deliver as floats are `real` and are only copied. */
module DataModel {
  import opened Dicts

  type Symbol = string

  datatype Listing = Listing(symbol: Symbol, product: string, denomination: string)

  /** One symbol's book: bid price -> positive size, ask price -> negative size. */
  datatype OrderDepth = OrderDepth(buyOrders: Dict<int, int>, sellOrders: Dict<int, int>)

  /** A request to trade; a positive quantity buys, a negative one sells. */
  datatype Order = Order(symbol: Symbol, price: int, quantity: int)

  datatype Trade = Trade(symbol: Symbol, price: int, quantity: int, buyer: string, seller: string, timestamp: int)

  datatype ConversionObservation = ConversionObservation(
    bidPrice: real,
    askPrice: real,
    transportFees: real,
    exportTariff: real,
    importTariff: real,
    sugarPrice: real,
    sunlightIndex: real)

  datatype Observation = Observation(
    plainValueObservations: Dict<string, int>,
    conversionObservations: Dict<string, ConversionObservation>)

  /** One tick's snapshot as delivered by the host. */
  datatype TradingState = TradingState(
    traderData: string,
    timestamp: int,
    listings: Dict<Symbol, Listing>,
    orderDepths: Dict<Symbol, OrderDepth>,
    ownTrades: Dict<Symbol, seq<Trade>>,
    marketTrades: Dict<Symbol, seq<Trade>>,
    position: Dict<Symbol, int>,
    observations: Observation)
}

=== FILE: dicts.dfy ===
/** Insertion-ordered dictionaries, as Python keeps them: a sequence of
    (key, value) pairs whose keys are pairwise distinct. */
module Dicts {
  import opened Wrappers
  import opened Seqs

  type Dict<K, V> = seq<(K, V)>

  /** The keys in insertion order (`d.keys()`). */
  function Keys<K, V>(d: Dict<K, V>): (ks: seq<K>)
    ensures |ks| == |d|
    ensures forall i :: 0 <= i < |d| ==> ks[i] == d[i].0
  {
    seq(|d|, i requires 0 <= i < |d| => d[i].0)
  }

  /** The values in insertion order (`d.values()`). */
  function Values<K, V>(d: Dict<K, V>): (vs: seq<V>)
    ensures |vs| == |d|
    ensures forall i :: 0 <= i < |d| ==> vs[i] == d[i].1
  {
    seq(|d|, i requires 0 <= i < |d| => d[i].1)
  }

  /** No key occurs twice: every Python dict satisfies this. */
  predicate DistinctKeys<K(==), V>(d: Dict<K, V>) {
    Distinct(Keys(d))
  }

  /** Lookup: `Some(d[k])` when `k in d`, `None` otherwise. */
  function Get<K(==), V>(d: Dict<K, V>, k: K): (r: Option<V>)
    ensures r.Some? <==> k in Keys(d)
    ensures r.Some? ==> exists i :: 0 <= i < |d| && d[i].0 == k && d[i].1 == r.value
  {
    if |d| == 0 then None
    else if d[0].0 == k then Some(d[0].1)
    else
      assert Keys(d) == [d[0].0] + Keys(d[1..]);
      var r := Get(d[1..], k);
      assert r.Some? ==> exists i :: 0 <= i < |d[1..]| && d[1..][i].0 == k && d[1..][i].1 == r.value;
      r
  }

  /** `d[k]` for a key known to be present. */
  function Lookup<K(==), V>(d: Dict<K, V>, k: K): (v: V)
    requires k in Keys(d)
    ensures exists i :: 0 <= i < |d| && d[i] == (k, v)
  {
    Get(d, k).value
  }

  /** In a dict with distinct keys, the pair at position i is what lookup finds. */
  lemma {:induction false} GetAt<K, V>(d: Dict<K, V>, i: int)
    requires DistinctKeys(d)
    requires 0 <= i < |d|
    ensures Get(d, d[i].0) == Some(d[i].1)
    ensures Lookup(d, d[i].0) == d[i].1
  {
    if i > 0 {
      assert d[0].0 != d[i].0;
      assert DistinctKeys(d[1..]) by {
        forall a, b | 0 <= a < b < |d[1..]| ensures d[1..][a].0 != d[1..][b].0 {
          assert d[1..][a] == d[a + 1] && d[1..][b] == d[b + 1];
        }
      }
      GetAt(d[1..], i - 1);
    }
  }

  /** Assignment `d[k] = v`: an existing key keeps its position and takes the
      new value; a new key is appended at the end. */
  function Put<K(==), V>(d: Dict<K, V>, k: K, v: V): (r: Dict<K, V>)
    ensures |r| == if k in Keys(d) then |d| else |d| + 1
    ensures k !in Keys(d) ==> r == d + [(k, v)]
    ensures forall i :: 0 <= i < |d| ==> r[i].0 == d[i].0
    ensures forall i :: 0 <= i < |r| ==> r[i] == (k, v) || (i < |d| && r[i] == d[i])
  {
    if |d| == 0 then [(k, v)]
    else if d[0].0 == k then [(k, v)] + d[1..]
    else
      assert Keys(d) == [d[0].0] + Keys(d[1..]);
      var r := [d[0]] + Put(d[1..], k, v);
      assert k !in Keys(d) ==> r == d + [(k, v)] by {
        if k !in Keys(d) {
          assert d == [d[0]] + d[1..];
        }
      }
      r
  }

  /** Assigning a present key leaves the key order as it was. */
  lemma PutKeys<K, V>(d: Dict<K, V>, k: K, v: V)
    requires k in Keys(d)
    ensures Keys(Put(d, k, v)) == Keys(d)
  {
  }

  /** After `d[k] = v`, looking up `k` gives `v` and every other key is unaffected. */
  lemma {:induction false} PutGet<K, V>(d: Dict<K, V>, k: K, v: V, k': K)
    ensures Get(Put(d, k, v), k') == if k' == k then Some(v) else Get(d, k')
  {
    var r := Put(d, k, v);
    if |d| > 0 && d[0].0 != k {
      assert r[1..] == Put(d[1..], k, v);
      if d[0].0 != k' {
        PutGet(d[1..], k, v, k');
      }
    } else if |d| > 0 {
      assert r[1..] == d[1..];
    }
  }

  /** Assignment keeps keys distinct. */
  lemma PutDistinct<K, V>(d: Dict<K, V>, k: K, v: V)
    requires DistinctKeys(d)
    ensures DistinctKeys(Put(d, k, v))
  {
    var r := Put(d, k, v);
    if k !in Keys(d) {
      forall a, b | 0 <= a < b < |r| ensures r[a].0 != r[b].0 {
        if b == |d| {
          assert r[a].0 == Keys(d)[a];
        }
      }
    }
  }

  /** Dropping the last pair keeps keys distinct, and the dropped key is not among the rest. */
  lemma DistinctKeysInit<K, V>(d: Dict<K, V>)
    requires DistinctKeys(d) && |d| > 0
    ensures DistinctKeys(d[..|d| - 1])
    ensures d[|d| - 1].0 !in Keys(d[..|d| - 1])
    ensures Keys(d) == Keys(d[..|d| - 1]) + [d[|d| - 1].0]
  {
    var init := d[..|d| - 1];
    forall a, b | 0 <= a < b < |init| ensures init[a].0 != init[b].0 {
      assert init[a] == d[a] && init[b] == d[b];
    }
    forall i | 0 <= i < |init| ensures Keys(init)[i] != d[|d| - 1].0 {
      assert init[i] == d[i];
    }
  }

  /** Rebuilds `d` key by key into an empty dict, storing `f` of each value,
      as a loop `out[k] = f(v)` over `d.items()` does. */
  function MapValues<K(==), V, W>(d: Dict<K, V>, f: V -> W): (r: Dict<K, W>)
    ensures DistinctKeys(d) ==> Keys(r) == Keys(d)
    ensures DistinctKeys(d) ==> forall i :: 0 <= i < |d| ==> r[i].1 == f(d[i].1)
  {
    if |d| == 0 then []
    else
      var init := d[..|d| - 1];
      var last := d[|d| - 1];
      var prev := MapValues(init, f);
      var r := Put(prev, last.0, f(last.1));
      assert DistinctKeys(d) ==>
          && Keys(r) == Keys(d)
          && forall i :: 0 <= i < |d| ==> r[i].1 == f(d[i].1) by {
        if DistinctKeys(d) {
          DistinctKeysInit(d);
          assert r == prev + [(last.0, f(last.1))];
          assert Keys(r) == Keys(prev) + [last.0];
          forall i | 0 <= i < |d| ensures r[i].1 == f(d[i].1) {
            if i < |init| {
              assert r[i] == prev[i] && d[i] == init[i];
            }
          }
        }
      }
      r
  }
}

=== FILE: logging.dfy ===
/** The bounded telemetry logger: a text buffer filled during a tick and one
    size-capped structured line emitted per tick. */
module Logging {
  import opened Seqs
  import opened Dicts
  import opened DataModel
  import opened Codec
  import opened Text

  /** The per-tick output ceiling, in characters. */
  const MaxLogLength := 3750

  datatype Logger = Logger(logs: string, maxLogLength: int)

  /** The logger as the agent creates it: an empty buffer and the ceiling. */
  function NewLogger(): (l: Logger)
    ensures l.logs == "" && l.maxLogLength == 3750
  {
    Logger("", MaxLogLength)
  }

  /** Compressed state, compressed orders, conversions, outgoing trader data, debug text. */
  type Envelope = (CompressedState, seq<CompressedOrder>, int, string, string)

  datatype FlushOutcome = FlushOutcome(line: Envelope, logger: Logger)

  /** `print(*objects, sep=sep, end=end)` into the buffer: earlier text is kept
      and the joined objects followed by `end` are added after it. */
  function Print(l: Logger, objects: seq<string>, sep: string, end: string): (r: Logger)
    ensures r.maxLogLength == l.maxLogLength
    ensures l.logs <= r.logs
    ensures |objects| > 0 ==>
      |r.logs| == |l.logs| + SumLengths(objects) + |sep| * (|objects| - 1) + |end|
    ensures |objects| > 0 ==> l.logs + objects[0] <= r.logs
    ensures |r.logs| >= |l.logs| + |end| && r.logs[|r.logs| - |end|..] == end
    ensures r.logs[|l.logs|..|r.logs| - |end|] == Join(sep, objects)
  {
    Logger(l.logs + Join(sep, objects) + end, l.maxLogLength)
  }

  /** `print(message)` with the default separator and line end. */
  function Log(l: Logger, message: string): (r: Logger)
    ensures r.maxLogLength == l.maxLogLength
    ensures r.logs == l.logs + message + "\n"
  {
    Logger(l.logs + message + "\n", l.maxLogLength)
  }

  /** `Log` is `print` of one object with the default separator and line end. */
  lemma LogIsPrint(l: Logger, message: string)
    ensures Log(l, message) == Print(l, [message], " ", "\n")
  {
    assert [message][..0] == [];
  }

  /** `value[:stop]` with Python's rule that a negative stop counts from the end. */
  function SlicePrefix(value: string, stop: int): (r: string)
    ensures r <= value
    ensures stop >= 0 ==> |r| == Min(stop, |value|)
    ensures stop < 0 ==> |r| == if |value| + stop > 0 then |value| + stop else 0
  {
    if stop >= 0 then value[..Min(stop, |value|)]
    else if |value| + stop > 0 then value[..|value| + stop]
    else ""
  }

  /** Shortens `value` to `maxLength` characters, the last three being "...". */
  function Truncate(value: string, maxLength: int): (r: string)
    ensures |value| <= maxLength ==> r == value
    ensures |value| > maxLength ==> 3 <= |r| <= |value| + 3
    ensures |value| > maxLength ==> r[|r| - 3..] == "..."
    ensures |value| > maxLength ==> |r| - 3 <= |value| && r[..|r| - 3] == value[..|r| - 3]
    ensures |value| > maxLength && maxLength >= 3 ==> |r| == maxLength
  {
    if |value| <= maxLength then value
    else SlicePrefix(value, maxLength - 3) + "..."
  }

  /** With a budget of at least three characters the result never exceeds it. */
  lemma TruncateFits(value: string, maxLength: int)
    requires maxLength >= 3
    ensures |Truncate(value, maxLength)| <= maxLength
    ensures |Truncate(value, maxLength)| == Min(|value|, maxLength)
  {
  }

  /** Below three characters the ellipsis alone overflows the budget: a long
      enough value comes back longer than `maxLength`. */
  lemma TruncateOverrunsSmallBudget(value: string, maxLength: int)
    requires maxLength < 3 && |value| > maxLength
    ensures |Truncate(value, maxLength)| > maxLength
    ensures |Truncate(value, maxLength)| == (if |value| + maxLength - 3 > 0 then |value| + maxLength - 3 else 0) + 3
  {
  }

  /** The share each of the three free-text fields gets: the floor of a third
      of what the structural part leaves of the ceiling. */
  function ItemBudget(maxLogLength: int, baseLength: int): (m: int)
    ensures 3 * m <= maxLogLength - baseLength < 3 * m + 3
  {
    (maxLogLength - baseLength) / 3
  }

  /** The envelope with all three free-text fields empty, whose encoded length
      is the structural baseline. */
  function BaseEnvelope(state: TradingState, orders: Dict<Symbol, seq<Order>>, conversions: int): (e: Envelope)
    ensures e.0.1 == "" && e.3 == "" && e.4 == ""
    ensures e.0 == CompressState(state, "") && e.1 == CompressOrders(orders) && e.2 == conversions
  {
    (CompressState(state, ""), CompressOrders(orders), conversions, "", "")
  }

  /** Two envelopes agree everywhere except in their three free-text fields. */
  predicate SameStructure(a: Envelope, b: Envelope) {
    a.0.(1 := "") == b.0.(1 := "") && a.1 == b.1 && a.2 == b.2
  }

  /** Emits one envelope per tick and empties the buffer. `encodedLength` is
      the length of the JSON text the encoder produces for an envelope. */
  function Flush(l: Logger, state: TradingState, orders: Dict<Symbol, seq<Order>>, conversions: int,
                 traderData: string, encodedLength: Envelope -> nat): (r: FlushOutcome)
    ensures r.logger.logs == "" && r.logger.maxLogLength == l.maxLogLength
    ensures SameStructure(r.line, BaseEnvelope(state, orders, conversions))
    ensures var m := ItemBudget(l.maxLogLength, encodedLength(BaseEnvelope(state, orders, conversions)));
      && r.line.0.1 == Truncate(state.traderData, m)
      && r.line.3 == Truncate(traderData, m)
      && r.line.4 == Truncate(l.logs, m)
  {
    var baseLength := encodedLength(BaseEnvelope(state, orders, conversions));
    var maxItemLength := ItemBudget(l.maxLogLength, baseLength);
    var line := (CompressState(state, Truncate(state.traderData, maxItemLength)),
                 CompressOrders(orders),
                 conversions,
                 Truncate(traderData, maxItemLength),
                 Truncate(l.logs, maxItemLength));
    FlushOutcome(line, Logger("", l.maxLogLength))
  }

  /** When each share is at least three characters, the three free-text fields
      together fit in what the baseline leaves of the ceiling. */
  lemma FlushTextWithinBudget(l: Logger, state: TradingState, orders: Dict<Symbol, seq<Order>>,
                              conversions: int, traderData: string, encodedLength: Envelope -> nat)
    requires ItemBudget(l.maxLogLength, encodedLength(BaseEnvelope(state, orders, conversions))) >= 3
    ensures var line := Flush(l, state, orders, conversions, traderData, encodedLength).line;
      |line.0.1| + |line.3| + |line.4| <= l.maxLogLength - encodedLength(BaseEnvelope(state, orders, conversions))
  {
    var m := ItemBudget(l.maxLogLength, encodedLength(BaseEnvelope(state, orders, conversions)));
    TruncateFits(state.traderData, m);
    TruncateFits(traderData, m);
    TruncateFits(l.logs, m);
  }
}

=== FILE: products.dfy ===
/** Per-symbol trading policies. Each product holds its position limit, its
    last known position and its symbol; every tick it refreshes the position
    and proposes orders. */
module Products {
  import opened Wrappers
  import opened Seqs
  import opened Dicts
  import opened DataModel
  import opened Text
  import opened Logging

  /** The fixed fair price the market-taking policy trades against. */
  const FairPrice := 10000

  datatype Kind = RainforestResin | Kelp

  datatype Product = Product(kind: Kind, limit: int, position: int, id: Symbol)

  /** A fresh RAINFOREST_RESIN product: flat, with a position limit of 50. */
  function NewRainforestResin(): (p: Product)
    ensures p.kind == RainforestResin && p.id == "RAINFOREST_RESIN"
    ensures p.limit == 50 && p.position == 0
  {
    Product(RainforestResin, 50, 0, "RAINFOREST_RESIN")
  }

  /** A fresh KELP product: flat, with a position limit of 50. */
  function NewKelp(): (p: Product)
    ensures p.kind == Kelp && p.id == "KELP"
    ensures p.limit == 50 && p.position == 0
  {
    Product(Kelp, 50, 0, "KELP")
  }

  /** The position refresh: the tick's position for this symbol, or 0 when the
      tick has none; nothing else about the product changes. */
  function Update(p: Product, state: TradingState): (q: Product)
    ensures q.kind == p.kind && q.limit == p.limit && q.id == p.id
    ensures p.id in Keys(state.position) ==> exists i :: 0 <= i < |state.position| && state.position[i] == (p.id, q.position)
    ensures p.id !in Keys(state.position) ==> q.position == 0
  {
    Product(p.kind, p.limit, Get(state.position, p.id).GetOr(0), p.id)
  }

  /** `price` is the lowest ask of the book side. */
  predicate IsBestAsk(asks: Dict<int, int>, price: int) {
    price in Keys(asks) && forall k :: k in Keys(asks) ==> price <= k
  }

  /** `price` is the highest bid of the book side. */
  predicate IsBestBid(bids: Dict<int, int>, price: int) {
    price in Keys(bids) && forall k :: k in Keys(bids) ==> k <= price
  }

  /** Some ask is priced below the fair price. */
  predicate HasCheapAsk(depth: OrderDepth) {
    exists i :: 0 <= i < |depth.sellOrders| && depth.sellOrders[i].0 < FairPrice
  }

  /** Some bid is priced above the fair price. */
  predicate HasRichBid(depth: OrderDepth) {
    exists i :: 0 <= i < |depth.buyOrders| && depth.buyOrders[i].0 > FairPrice
  }

  /** Buy side: take the lowest ask when it is below the fair price, for the
      ask's size or the room left below the limit, whichever is smaller. */
  function BuySide(p: Product, depth: OrderDepth): (r: Option<Order>)
    ensures r.Some? <==> HasCheapAsk(depth)
    ensures r.Some? ==> r.value.symbol == p.id && r.value.price < FairPrice && IsBestAsk(depth.sellOrders, r.value.price)
    ensures r.Some? ==>
      var volume := -Lookup(depth.sellOrders, r.value.price);
      && r.value.quantity <= volume
      && r.value.quantity <= p.limit - p.position
      && (r.value.quantity == volume || r.value.quantity == p.limit - p.position)
    ensures r.Some? && p.position <= p.limit ==> p.position + r.value.quantity <= p.limit
  {
    var asks := depth.sellOrders;
    if |asks| == 0 then None
    else
      var bestAsk := MinOf(Keys(asks));
      var bestAskVolume := -1 * Lookup(asks, bestAsk);
      assert HasCheapAsk(depth) ==> bestAsk < FairPrice by {
        if HasCheapAsk(depth) {
          var i :| 0 <= i < |asks| && asks[i].0 < FairPrice;
          assert Keys(asks)[i] == asks[i].0;
          assert asks[i].0 in Keys(asks);
        }
      }
      if bestAsk < FairPrice then
        Some(Order(p.id, bestAsk, Min(bestAskVolume, p.limit - p.position)))
      else None
  }

  /** Sell side: hit the highest bid when it is above the fair price, for the
      bid's size or the room left above minus the limit, whichever is smaller. */
  function SellSide(p: Product, depth: OrderDepth): (r: Option<Order>)
    ensures r.Some? <==> HasRichBid(depth)
    ensures r.Some? ==> r.value.symbol == p.id && r.value.price > FairPrice && IsBestBid(depth.buyOrders, r.value.price)
    ensures r.Some? ==>
      var volume := Lookup(depth.buyOrders, r.value.price);
      && -r.value.quantity <= volume
      && -r.value.quantity <= p.limit + p.position
      && (-r.value.quantity == volume || -r.value.quantity == p.limit + p.position)
    ensures r.Some? && p.position >= -p.limit ==> p.position + r.value.quantity >= -p.limit
  {
    var bids := depth.buyOrders;
    if |bids| == 0 then None
    else
      var bestBid := MaxOf(Keys(bids));
      var bestBidVolume := Lookup(bids, bestBid);
      assert HasRichBid(depth) ==> bestBid > FairPrice by {
        if HasRichBid(depth) {
          var i :| 0 <= i < |bids| && bids[i].0 > FairPrice;
          assert Keys(bids)[i] == bids[i].0;
          assert bids[i].0 in Keys(bids);
        }
      }
      if bestBid > FairPrice then
        Some(Order(p.id, bestBid, -Min(bestBidVolume, p.limit + p.position)))
      else None
  }

  function AsSeq(o: Option<Order>): seq<Order> {
    if o.Some? then [o.value] else []
  }

  /** What a product may be asked to decide on: the market-taking policy reads
      its own symbol's book, which must be in the tick. */
  predicate CanDecide(p: Product, state: TradingState) {
    p.kind == RainforestResin ==> p.id in Keys(state.orderDepths)
  }

  /** The orders a product proposes for a tick, given its refreshed position. */
  function Decide(p: Product, state: TradingState): (r: seq<Order>)
    requires CanDecide(p, state)
    ensures |r| <= 2
    ensures forall i :: 0 <= i < |r| ==> r[i].symbol == p.id
    ensures forall i, j :: 0 <= i < j < |r| ==> r[i].price < FairPrice < r[j].price
    ensures p.kind == Kelp ==> r == []
    ensures p.kind == RainforestResin ==>
      var depth := Lookup(state.orderDepths, p.id);
      (r == [] <==> !HasCheapAsk(depth) && !HasRichBid(depth))
    ensures p.kind == RainforestResin ==>
      var depth := Lookup(state.orderDepths, p.id);
      && |r| == (if HasCheapAsk(depth) then 1 else 0) + (if HasRichBid(depth) then 1 else 0)
      && (HasCheapAsk(depth) ==> r[0] == BuySide(p, depth).value)
      && (HasRichBid(depth) ==> r[|r| - 1] == SellSide(p, depth).value)
  {
    match p.kind
    case Kelp => []
    case RainforestResin =>
      var depth := Lookup(state.orderDepths, p.id);
      var buy := BuySide(p, depth);
      var sell := SellSide(p, depth);
      AsSeq(buy) + AsSeq(sell)
  }

  /** The message logged for a buy order: "Buying", its size, its symbol, "@"
      and its price, separated by spaces. */
  function BuyMessage(o: Order): (m: string)
    ensures |m| == 7 + |IntToString(o.quantity)| + 1 + |o.symbol| + 3 + |IntToString(o.price)|
    ensures m[..7] == "Buying " && m[7..7 + |IntToString(o.quantity)|] == IntToString(o.quantity)
    ensures m[|m| - |IntToString(o.price)|..] == IntToString(o.price)
  {
    "Buying " + IntToString(o.quantity) + " " + o.symbol + " @ " + IntToString(o.price)
  }

  /** The message logged for a sell order: "Selling", its size shown as a
      positive number, its symbol, "@" and its price, separated by spaces. */
  function SellMessage(o: Order): (m: string)
    ensures |m| == 8 + |IntToString(-o.quantity)| + 1 + |o.symbol| + 3 + |IntToString(o.price)|
    ensures m[..8] == "Selling " && m[8..8 + |IntToString(-o.quantity)|] == IntToString(-o.quantity)
    ensures m[|m| - |IntToString(o.price)|..] == IntToString(o.price)
  {
    "Selling " + IntToString(-o.quantity) + " " + o.symbol + " @ " + IntToString(o.price)
  }

  /** The line logged for a proposed order: buys are priced below the fair
      price and sells above it. */
  function OrderLine(o: Order): (line: string)
    ensures |line| > 0 && line[|line| - 1] == '\n'
    ensures o.price < FairPrice ==> line == BuyMessage(o) + "\n"
    ensures o.price >= FairPrice ==> line == SellMessage(o) + "\n"
  {
    (if o.price < FairPrice then BuyMessage(o) else SellMessage(o)) + "\n"
  }

  /** One logged line per order, in order. */
  function OrderLines(orders: seq<Order>): string {
    if |orders| == 0 then "" else OrderLines(orders[..|orders| - 1]) + OrderLine(orders[|orders| - 1])
  }

  /** The lines logged for a buy side and a sell side: the buy's line, then the sell's. */
  lemma OrderLinesOfSides(buy: Option<Order>, sell: Option<Order>)
    requires buy.Some? ==> buy.value.price < FairPrice
    requires sell.Some? ==> sell.value.price > FairPrice
    ensures OrderLines(AsSeq(buy) + AsSeq(sell))
      == (if buy.Some? then OrderLine(buy.value) else "") + (if sell.Some? then OrderLine(sell.value) else "")
  {
    var b := AsSeq(buy);
    var orders := b + AsSeq(sell);
    assert OrderLines(b) == (if buy.Some? then OrderLine(buy.value) else "") by {
      if buy.Some? {
        assert b[..0] == [];
      }
    }
    if sell.Some? {
      assert orders[..|orders| - 1] == b;
    } else {
      assert orders == b;
    }
  }

  /** Logs the buy line, if there is a buy. */
  function LogBuy(logger: Logger, buy: Option<Order>): (r: Logger)
    requires buy.Some? ==> buy.value.price < FairPrice
    ensures r.maxLogLength == logger.maxLogLength
    ensures r.logs == logger.logs + (if buy.Some? then OrderLine(buy.value) else "")
  {
    if buy.Some? then
      assert OrderLine(buy.value) == BuyMessage(buy.value) + "\n";
      Log(logger, BuyMessage(buy.value))
    else
      assert logger.logs + "" == logger.logs;
      logger
  }

  /** Logs the sell line, if there is a sell. */
  function LogSell(logger: Logger, sell: Option<Order>): (r: Logger)
    requires sell.Some? ==> sell.value.price > FairPrice
    ensures r.maxLogLength == logger.maxLogLength
    ensures r.logs == logger.logs + (if sell.Some? then OrderLine(sell.value) else "")
  {
    if sell.Some? then
      assert OrderLine(sell.value) == SellMessage(sell.value) + "\n";
      Log(logger, SellMessage(sell.value))
    else
      assert logger.logs + "" == logger.logs;
      logger
  }

  /** Logs the buy line, if any, then the sell line, if any. */
  function LogSides(logger: Logger, buy: Option<Order>, sell: Option<Order>): (r: Logger)
    requires buy.Some? ==> buy.value.price < FairPrice
    requires sell.Some? ==> sell.value.price > FairPrice
    ensures r.maxLogLength == logger.maxLogLength
    ensures r.logs == logger.logs + OrderLines(AsSeq(buy) + AsSeq(sell))
  {
    var afterBuy := LogBuy(logger, buy);
    OrderLinesOfSides(buy, sell);
    ConcatAssoc(logger.logs, if buy.Some? then OrderLine(buy.value) else "", if sell.Some? then OrderLine(sell.value) else "");
    LogSell(afterBuy, sell)
  }

  datatype TradeOutcome = TradeOutcome(product: Product, logger: Logger, orders: seq<Order>)

  /** One tick for one product: refresh the position, decide, and log a line
      per proposed order. */
  function Trade(p: Product, state: TradingState, logger: Logger): (r: TradeOutcome)
    requires CanDecide(p, state)
    ensures r.product == Update(p, state)
    ensures r.orders == Decide(r.product, state)
    ensures r.logger.maxLogLength == logger.maxLogLength && logger.logs <= r.logger.logs
    ensures r.orders == [] ==> r.logger == logger
    ensures r.logger.logs == logger.logs + OrderLines(r.orders)
  {
    var q := Update(p, state);
    match p.kind
    case Kelp =>
      assert logger.logs + OrderLines([]) == logger.logs;
      TradeOutcome(q, logger, [])
    case RainforestResin =>
      var logged := LogDecision(q, state, logger);
      TradeOutcome(q, logged, Decide(q, state))
  }

  /** Logs a RAINFOREST_RESIN decision: one line per proposed order. */
  function LogDecision(q: Product, state: TradingState, logger: Logger): (r: Logger)
    requires q.kind == RainforestResin && CanDecide(q, state)
    ensures r.maxLogLength == logger.maxLogLength
    ensures r.logs == logger.logs + OrderLines(Decide(q, state))
  {
    var depth := Lookup(state.orderDepths, q.id);
    var buy := BuySide(q, depth);
    var sell := SellSide(q, depth);
    assert Decide(q, state) == AsSeq(buy) + AsSeq(sell);
    LogSides(logger, buy, sell)
  }

  /** Sum of the buy quantities: the inventory gained if every buy fills. */
  function LongExposure(orders: seq<Order>): int {
    if |orders| == 0 then 0
    else LongExposure(orders[..|orders| - 1]) + (if orders[|orders| - 1].quantity > 0 then orders[|orders| - 1].quantity else 0)
  }

  /** Sum of the sell quantities (negative): the inventory lost if every sell fills. */
  function ShortExposure(orders: seq<Order>): int {
    if |orders| == 0 then 0
    else ShortExposure(orders[..|orders| - 1]) + (if orders[|orders| - 1].quantity < 0 then orders[|orders| - 1].quantity else 0)
  }

  /** Bids carry non-negative sizes and asks non-positive ones. */
  predicate WellFormedDepth(depth: OrderDepth) {
    && (forall i :: 0 <= i < |depth.buyOrders| ==> depth.buyOrders[i].1 >= 0)
    && (forall i :: 0 <= i < |depth.sellOrders| ==> depth.sellOrders[i].1 <= 0)
  }

  /** The inventory bound: starting within the limit and facing a well-formed
      book, the position stays within [-limit, limit] however the proposed
      orders fill. */
  lemma WorstCaseFillWithinLimit(p: Product, state: TradingState)
    requires CanDecide(p, state)
    requires -p.limit <= p.position <= p.limit
    requires p.kind == RainforestResin ==> WellFormedDepth(Lookup(state.orderDepths, p.id))
    ensures p.position + LongExposure(Decide(p, state)) <= p.limit
    ensures p.position + ShortExposure(Decide(p, state)) >= -p.limit
  {
    if p.kind == RainforestResin {
      var depth := Lookup(state.orderDepths, p.id);
      var buy := BuySide(p, depth);
      var sell := SellSide(p, depth);
      var r := Decide(p, state);
      if buy.Some? {
        assert buy.value.quantity >= 0 by {
          var price := buy.value.price;
          var i :| 0 <= i < |depth.sellOrders| && depth.sellOrders[i].0 == price && depth.sellOrders[i].1 == Lookup(depth.sellOrders, price);
        }
      }
      if sell.Some? {
        assert sell.value.quantity <= 0 by {
          var price := sell.value.price;
          var i :| 0 <= i < |depth.buyOrders| && depth.buyOrders[i].0 == price && depth.buyOrders[i].1 == Lookup(depth.buyOrders, price);
        }
      }
      assert r == AsSeq(buy) + AsSeq(sell);
      ExposureOfSides(buy, sell);
    }
  }

  /** A buy of non-negative size and a sell of non-positive size: the long
      exposure is the buy's size and the short exposure the sell's. */
  lemma ExposureOfSides(buy: Option<Order>, sell: Option<Order>)
    requires buy.Some? ==> buy.value.quantity >= 0
    requires sell.Some? ==> sell.value.quantity <= 0
    ensures LongExposure(AsSeq(buy) + AsSeq(sell)) == if buy.Some? then buy.value.quantity else 0
    ensures ShortExposure(AsSeq(buy) + AsSeq(sell)) == if sell.Some? then sell.value.quantity else 0
  {
    var r := AsSeq(buy) + AsSeq(sell);
    if buy.Some? && sell.Some? {
      assert r[..1] == [buy.value];
      assert [buy.value][..0] == [];
      assert LongExposure([buy.value]) == buy.value.quantity;
      assert LongExposure(r) == LongExposure(r[..1]);
      assert ShortExposure([buy.value]) == 0;
    } else if buy.Some? || sell.Some? {
      assert r[..0] == [];
    }
  }
}

/** Worked ticks for the market-taking policy. */
module ProductScenarios {
  import opened Dicts
  import opened DataModel
  import opened Products

  /** A tick that carries only one symbol's book and no positions. */
  function BookTick(symbol: Symbol, depth: OrderDepth): (s: TradingState)
    ensures Keys(s.orderDepths) == [symbol]
  {
    TradingState("", 0, [], [(symbol, depth)], [], [], [], Observation([], []))
  }

  function Resin(position: int): Product {
    Product(RainforestResin, 50, position, "RAINFOREST_RESIN")
  }

  /** An ask of 5 at 9998 from a flat position is bought in full. */
  lemma BuyCheapAsk()
    ensures Decide(Resin(0), BookTick("RAINFOREST_RESIN", OrderDepth([], [(9998, -5)])))
         == [Order("RAINFOREST_RESIN", 9998, 5)]
  {
  }

  /** A bid of 8 at 10002 from position 45 is sold in full. */
  lemma SellRichBid()
    ensures Decide(Resin(45), BookTick("RAINFOREST_RESIN", OrderDepth([(10002, 8)], [])))
         == [Order("RAINFOREST_RESIN", 10002, -8)]
  {
  }

  /** From position 48 only 2 more fit under the limit of 50. */
  lemma BuyClippedToHeadroom()
    ensures Decide(Resin(48), BookTick("RAINFOREST_RESIN", OrderDepth([], [(9998, -10)])))
         == [Order("RAINFOREST_RESIN", 9998, 2)]
  {
  }

  /** At the limit the buy is still emitted, with quantity 0. */
  lemma ZeroQuantityStillEmitted()
    ensures Decide(Resin(50), BookTick("RAINFOREST_RESIN", OrderDepth([], [(9998, -5)])))
         == [Order("RAINFOREST_RESIN", 9998, 0)]
  {
  }

  /** An empty book yields no orders. */
  lemma EmptyBookNoOrders(position: int)
    ensures Decide(Resin(position), BookTick("RAINFOREST_RESIN", OrderDepth([], []))) == []
  {
  }

  /** The bound needs a well-formed book: a bid with a negative size turns the
      "sell" into a buy on top of the full-headroom buy. */
  lemma MalformedBidBreaksBound()
    ensures var orders := Decide(Resin(0), BookTick("RAINFOREST_RESIN", OrderDepth([(10002, -10)], [(9998, -50)])));
      0 + LongExposure(orders) > 50
  {
    var orders := Decide(Resin(0), BookTick("RAINFOREST_RESIN", OrderDepth([(10002, -10)], [(9998, -50)])));
    assert orders == [Order("RAINFOREST_RESIN", 9998, 50), Order("RAINFOREST_RESIN", 10002, 10)];
    assert orders[..1] == [Order("RAINFOREST_RESIN", 9998, 50)];
    assert orders[..1][..0] == [];
  }
}

=== FILE: seqs.dfy ===
/** Sequence helpers: concatenation of nested sequences and integer extremes. */
module Seqs {

  /** Total number of elements across all inner sequences. */
  function SumLengths<T>(xss: seq<seq<T>>): nat {
    if |xss| == 0 then 0 else SumLengths(xss[..|xss| - 1]) + |xss[|xss| - 1]|
  }

  /** The inner sequences concatenated front to back. */
  function Flatten<T>(xss: seq<seq<T>>): (r: seq<T>)
    ensures |r| == SumLengths(xss)
  {
    if |xss| == 0 then [] else Flatten(xss[..|xss| - 1]) + xss[|xss| - 1]
  }

  /** Applies `f` to every element of every inner sequence, keeping the
      order of a nested loop over `xss`. */
  function FlatMap<T, U>(xss: seq<seq<T>>, f: T -> U): (r: seq<U>)
    ensures |r| == |Flatten(xss)|
    ensures forall k :: 0 <= k < |r| ==> r[k] == f(Flatten(xss)[k])
  {
    if |xss| == 0 then []
    else
      var last := xss[|xss| - 1];
      FlatMap(xss[..|xss| - 1], f) + seq(|last|, j requires 0 <= j < |last| => f(last[j]))
  }

  /** Concatenation is associative. */
  lemma ConcatAssoc<T>(a: seq<T>, b: seq<T>, c: seq<T>)
    ensures (a + b) + c == a + (b + c)
  {
  }

  /** No element occurs twice. */
  predicate Distinct<T(==)>(xs: seq<T>) {
    forall i, j :: 0 <= i < j < |xs| ==> xs[i] != xs[j]
  }

  /** Python's two-argument `min`. */
  function Min(a: int, b: int): (m: int)
    ensures m <= a && m <= b
    ensures m == a || m == b
  {
    if a <= b then a else b
  }

  /** Python's `min` over a non-empty collection of integers. */
  function MinOf(xs: seq<int>): (m: int)
    requires |xs| > 0
    ensures m in xs
    ensures forall x :: x in xs ==> m <= x
  {
    if |xs| == 1 then xs[0]
    else
      var rest := MinOf(xs[..|xs| - 1]);
      assert forall x :: x in xs ==> x in xs[..|xs| - 1] || x == xs[|xs| - 1];
      Min(rest, xs[|xs| - 1])
  }

  /** Python's `max` over a non-empty collection of integers. */
  function MaxOf(xs: seq<int>): (m: int)
    requires |xs| > 0
    ensures m in xs
    ensures forall x :: x in xs ==> x <= m
  {
    if |xs| == 1 then xs[0]
    else
      var rest := MaxOf(xs[..|xs| - 1]);
      assert forall x :: x in xs ==> x in xs[..|xs| - 1] || x == xs[|xs| - 1];
      if rest >= xs[|xs| - 1] then rest else xs[|xs| - 1]
  }
}

=== FILE: text.dfy ===
/** The string formatting the agent's log messages rely on: Python's `str`
    of an integer (as used inside f-strings) and `sep.join(parts)`. */
module Text {
  import opened Seqs

  predicate IsDigit(c: char) {
    '0' <= c <= '9'
  }

  function DigitChar(d: nat): (c: char)
    requires d < 10
    ensures IsDigit(c)
  {
    (48 + d) as char
  }

  function DigitValue(c: char): int {
    c as int - 48
  }

  /** Decimal digits of a natural number, most significant first, no leading zero. */
  function NatToString(n: nat): (s: string)
    ensures |s| > 0
    ensures forall i :: 0 <= i < |s| ==> IsDigit(s[i])
    ensures |s| > 1 ==> s[0] != '0'
  {
    if n < 10 then [DigitChar(n)] else NatToString(n / 10) + [DigitChar(n % 10)]
  }

  /** `str(i)` for a Python int: a minus sign before the digits of a negative value. */
  function IntToString(i: int): (s: string)
    ensures |s| > 0
    ensures i < 0 <==> s[0] == '-'
    ensures var d := if i < 0 then 1 else 0;
      && |s| > d
      && (forall j :: d <= j < |s| ==> IsDigit(s[j]))
      && (|s| > d + 1 ==> s[d] != '0')
  {
    if i < 0 then "-" + NatToString(-i) else NatToString(i)
  }

  /** Reads a string of decimal digits back as a number. */
  function ParseDigits(s: string): int {
    if |s| == 0 then 0 else ParseDigits(s[..|s| - 1]) * 10 + DigitValue(s[|s| - 1])
  }

  /** Reads an optionally signed decimal numeral back as a number. */
  function ParseInt(s: string): int {
    if |s| > 0 && s[0] == '-' then -ParseDigits(s[1..]) else ParseDigits(s)
  }

  lemma {:induction false} NatToStringRoundTrip(n: nat)
    ensures ParseDigits(NatToString(n)) == n
  {
    if n >= 10 {
      var s := NatToString(n);
      assert s[..|s| - 1] == NatToString(n / 10);
      NatToStringRoundTrip(n / 10);
    }
  }

  /** The decimal rendering loses nothing: parsing it gives the integer back. */
  lemma IntToStringRoundTrip(i: int)
    ensures ParseInt(IntToString(i)) == i
  {
    if i < 0 {
      NatToStringRoundTrip(-i);
      assert IntToString(i)[1..] == NatToString(-i);
    } else {
      NatToStringRoundTrip(i);
    }
  }

  /** Where the `i`-th part starts inside `sep.join(parts)`: after the parts
      before it and one separator behind each of them. */
  function JoinOffset(sep: string, parts: seq<string>, i: nat): nat
    requires i <= |parts|
  {
    SumLengths(parts[..i]) + i * |sep|
  }

  /** Part `i` of `parts` sits in `r` at `JoinOffset(sep, parts, i)`. */
  predicate PartsAt(sep: string, parts: seq<string>, r: string) {
    forall i :: 0 <= i < |parts| ==>
      && JoinOffset(sep, parts, i) + |parts[i]| <= |r|
      && r[JoinOffset(sep, parts, i)..JoinOffset(sep, parts, i) + |parts[i]|] == parts[i]
  }

  /** Every part of `parts` but the last is followed in `r` by `sep`. */
  predicate SeparatorsAt(sep: string, parts: seq<string>, r: string) {
    forall i :: 0 <= i < |parts| - 1 ==>
      && JoinOffset(sep, parts, i) + |parts[i]| + |sep| <= |r|
      && r[JoinOffset(sep, parts, i) + |parts[i]|..JoinOffset(sep, parts, i) + |parts[i]| + |sep|] == sep
  }

  /** The offsets of a prefix's parts are the same as in the whole. */
  lemma JoinOffsetPrefix(sep: string, parts: seq<string>, n: nat, i: nat)
    requires i <= n <= |parts|
    ensures JoinOffset(sep, parts[..n], i) == JoinOffset(sep, parts, i)
  {
    assert parts[..n][..i] == parts[..i];
  }

  /** A slice that lies inside the left operand of a concatenation. */
  lemma SliceOfConcat(a: string, b: string, o: nat, len: nat)
    requires o + len <= |a|
    ensures (a + b)[o..o + len] == a[o..o + len]
  {
  }

  /** The offset of the part after the last of `parts[..n]`: the length of
      their join plus one separator. */
  lemma JoinOffsetNext(sep: string, parts: seq<string>, n: nat)
    requires 1 <= n < |parts|
    ensures JoinOffset(sep, parts, n) == SumLengths(parts[..n]) + |sep| * (n - 1) + |sep|
  {
  }

  /** Appending a separator and one more part keeps every earlier part in place
      and puts the new part right after the separator. */
  lemma {:induction false} PartsAtStep(sep: string, parts: seq<string>, prev: string)
    requires |parts| >= 2
    requires |prev| == SumLengths(parts[..|parts| - 1]) + |sep| * (|parts| - 2)
    requires PartsAt(sep, parts[..|parts| - 1], prev)
    ensures PartsAt(sep, parts, prev + sep + parts[|parts| - 1])
  {
    var n := |parts|;
    var init := parts[..n - 1];
    var last := parts[n - 1];
    var r := prev + sep + last;
    assert r == prev + (sep + last);
    JoinOffsetNext(sep, parts, n - 1);
    forall i | 0 <= i < n
      ensures JoinOffset(sep, parts, i) + |parts[i]| <= |r|
      ensures r[JoinOffset(sep, parts, i)..JoinOffset(sep, parts, i) + |parts[i]|] == parts[i]
    {
      if i < n - 1 {
        JoinOffsetPrefix(sep, parts, n - 1, i);
        var o := JoinOffset(sep, init, i);
        assert init[i] == parts[i];
        assert prev[o..o + |init[i]|] == init[i];
        SliceOfConcat(prev, sep + last, o, |init[i]|);
      } else {
        assert r[|prev + sep|..|prev + sep| + |last|] == last;
      }
    }
  }

  /** Appending a separator and one more part keeps every earlier separator in
      place and adds one right after the old last part. */
  lemma {:induction false} SeparatorsAtStep(sep: string, parts: seq<string>, prev: string)
    requires |parts| >= 2
    requires |prev| == SumLengths(parts[..|parts| - 1]) + |sep| * (|parts| - 2)
    requires SeparatorsAt(sep, parts[..|parts| - 1], prev)
    ensures SeparatorsAt(sep, parts, prev + sep + parts[|parts| - 1])
  {
    var n := |parts|;
    var init := parts[..n - 1];
    var last := parts[n - 1];
    var r := prev + sep + last;
    forall i | 0 <= i < n - 1
      ensures JoinOffset(sep, parts, i) + |parts[i]| + |sep| <= |r|
      ensures r[JoinOffset(sep, parts, i) + |parts[i]|..JoinOffset(sep, parts, i) + |parts[i]| + |sep|] == sep
    {
      JoinOffsetPrefix(sep, parts, n - 1, i);
      var o := JoinOffset(sep, init, i) + |init[i]|;
      assert init[i] == parts[i];
      if i < n - 2 {
        assert prev[o..o + |sep|] == sep;
        SliceOfConcat(prev, sep + last, o, |sep|);
        assert r == prev + (sep + last);
      } else {
        assert parts[..n - 2] == init[..n - 2];
        assert init[..n - 2 + 1] == init;
        assert o == |prev|;
        assert r[|prev|..|prev| + |sep|] == sep;
      }
    }
  }

  /** `sep.join(parts)`: the parts in order with `sep` between neighbours. */
  function Join(sep: string, parts: seq<string>): (r: string)
    ensures |parts| > 0 ==> |r| == SumLengths(parts) + |sep| * (|parts| - 1)
    ensures |parts| == 0 ==> r == ""
    ensures PartsAt(sep, parts, r)
    ensures SeparatorsAt(sep, parts, r)
  {
    if |parts| == 0 then ""
    else if |parts| == 1 then
      assert parts[..0] == [];
      parts[0]
    else
      var n := |parts|;
      var init := parts[..n - 1];
      var prev := Join(sep, init);
      PartsAtStep(sep, parts, prev);
      SeparatorsAtStep(sep, parts, prev);
      prev + sep + parts[n - 1]
  }
}

=== FILE: trader.dfy ===
/** The per-tick entry point: dispatch every symbol of the tick to its
    registered product, then flush the telemetry. */
module Trader {
  import opened Wrappers
  import opened Seqs
  import opened Dicts
  import opened DataModel
  import opened Codec
  import opened Logging
  import opened Products

  /** Symbol -> product, kept across ticks so that positions carry forward. */
  type Registry = Dict<Symbol, Product>

  /** The agent's products: RAINFOREST_RESIN then KELP, each flat with limit 50
      and stored under its own symbol. */
  function InitialRegistry(): (r: Registry)
    ensures Keys(r) == ["RAINFOREST_RESIN", "KELP"]
    ensures forall i :: 0 <= i < |r| ==> r[i].1.id == r[i].0 && r[i].1.limit == 50 && r[i].1.position == 0
    ensures r[0].1.kind == RainforestResin && r[1].1.kind == Kelp
  {
    [("RAINFOREST_RESIN", NewRainforestResin()), ("KELP", NewKelp())]
  }

  /** Every product is registered under its own symbol. */
  predicate RegistryWellFormed(registry: Registry) {
    forall i :: 0 <= i < |registry| ==> registry[i].1.id == registry[i].0
  }

  /** The symbols, in their order, that have a registered product. */
  function Known(symbols: seq<Symbol>, registry: Registry): (r: seq<Symbol>)
    ensures forall x :: x in r <==> x in symbols && x in Keys(registry)
    ensures Distinct(symbols) ==> Distinct(r)
  {
    if |symbols| == 0 then []
    else
      var init := symbols[..|symbols| - 1];
      var last := symbols[|symbols| - 1];
      assert symbols == init + [last];
      var prev := Known(init, registry);
      assert Distinct(symbols) ==> Distinct(init) by {
        if Distinct(symbols) {
          forall i, j | 0 <= i < j < |init| ensures init[i] != init[j] {
            assert init[i] == symbols[i] && init[j] == symbols[j];
          }
        }
      }
      if last in Keys(registry) then prev + [last] else prev
  }

  /** `Known` keeps the visiting order: the known symbols of the first `n`
      visited ones are exactly the start of the known symbols of all of them. */
  lemma {:induction false} KnownKeepsOrder(symbols: seq<Symbol>, registry: Registry, n: nat)
    requires n <= |symbols|
    ensures Known(symbols[..n], registry) <= Known(symbols, registry)
  {
    if n < |symbols| {
      var init := symbols[..|symbols| - 1];
      assert init[..n] == symbols[..n];
      KnownKeepsOrder(init, registry, n);
    } else {
      assert symbols[..n] == symbols;
    }
  }

  function Refresh(o: Option<Product>, state: TradingState): Option<Product> {
    if o.Some? then Some(Update(o.value, state)) else None
  }

  /** What the product registered under `symbol` proposes this tick. */
  function ExpectedOrders(registry: Registry, state: TradingState, symbol: Symbol): seq<Order> {
    match Get(registry, symbol)
    case None => []
    case Some(p) =>
      var q := Update(p, state);
      if CanDecide(q, state) then Decide(q, state) else []
  }

  datatype DispatchOutcome = DispatchOutcome(registry: Registry, result: Dict<Symbol, seq<Order>>, logger: Logger)

  /** The symbols are distinct and each has a book in the tick. */
  predicate DispatchableSymbols(state: TradingState, symbols: seq<Symbol>) {
    && Distinct(symbols)
    && forall i :: 0 <= i < |symbols| ==> symbols[i] in Keys(state.orderDepths)
  }

  /** The loop over the tick's symbols: log each one and, when a product is
      registered for it, trade it and store its orders under the symbol. */
  function Dispatch(state: TradingState, registry: Registry, logger: Logger, symbols: seq<Symbol>): (r: DispatchOutcome)
    requires RegistryWellFormed(registry)
    requires DispatchableSymbols(state, symbols)
    ensures RegistryWellFormed(r.registry)
    ensures r.logger.maxLogLength == logger.maxLogLength && logger.logs <= r.logger.logs
  {
    if |symbols| == 0 then DispatchOutcome(registry, [], logger)
    else
      var init := symbols[..|symbols| - 1];
      var s := symbols[|symbols| - 1];
      DispatchablePrefix(state, symbols);
      var prev := Dispatch(state, registry, logger, init);
      var logged := Log(prev.logger, "Processing product: " + s);
      match Get(prev.registry, s)
      case None => DispatchOutcome(prev.registry, prev.result, logged)
      case Some(p) =>
        var t := Products.Trade(p, state, logged);
        var registry' := Put(prev.registry, s, t.product);
        DispatchOutcome(registry', Put(prev.result, s, t.orders), t.logger)
  }

  lemma DispatchablePrefix(state: TradingState, symbols: seq<Symbol>)
    requires DispatchableSymbols(state, symbols) && |symbols| > 0
    ensures DispatchableSymbols(state, symbols[..|symbols| - 1])
    ensures symbols[|symbols| - 1] !in symbols[..|symbols| - 1]
    ensures forall x :: x in symbols <==> x in symbols[..|symbols| - 1] || x == symbols[|symbols| - 1]
  {
    var init := symbols[..|symbols| - 1];
    assert symbols == init + [symbols[|symbols| - 1]];
    forall i, j | 0 <= i < j < |init| ensures init[i] != init[j] {
      assert init[i] == symbols[i] && init[j] == symbols[j];
    }
    forall i | 0 <= i < |init| ensures init[i] != symbols[|symbols| - 1] {
      assert init[i] == symbols[i];
    }
  }

  /** Dispatch refreshes the position of exactly the registered products whose
      symbol it visits, and registers nothing new. */
  lemma {:induction false} DispatchRefreshesVisited(state: TradingState, registry: Registry, logger: Logger, symbols: seq<Symbol>)
    requires RegistryWellFormed(registry)
    requires DispatchableSymbols(state, symbols)
    ensures var r := Dispatch(state, registry, logger, symbols);
      && Keys(r.registry) == Keys(registry)
      && forall k :: Get(r.registry, k) == if k in symbols then Refresh(Get(registry, k), state) else Get(registry, k)
  {
    if |symbols| > 0 {
      var init := symbols[..|symbols| - 1];
      var s := symbols[|symbols| - 1];
      DispatchablePrefix(state, symbols);
      DispatchRefreshesVisited(state, registry, logger, init);
      var prev := Dispatch(state, registry, logger, init);
      var logged := Log(prev.logger, "Processing product: " + s);
      if Get(prev.registry, s).Some? {
        var p := Get(prev.registry, s).value;
        var t := Products.Trade(p, state, logged);
        var registry' := Put(prev.registry, s, t.product);
        assert Dispatch(state, registry, logger, symbols).registry == registry';
        PutKeys(prev.registry, s, t.product);
        forall k ensures Get(registry', k) == if k in symbols then Refresh(Get(registry, k), state) else Get(registry, k) {
          PutGet(prev.registry, s, t.product, k);
        }
      }
    }
  }

  /** Dispatch's result is keyed, in visiting order, by exactly the visited
      symbols that have a registered product. */
  lemma {:induction false} DispatchCollectsKnown(state: TradingState, registry: Registry, logger: Logger, symbols: seq<Symbol>)
    requires RegistryWellFormed(registry)
    requires DispatchableSymbols(state, symbols)
    ensures Keys(Dispatch(state, registry, logger, symbols).result) == Known(symbols, registry)
  {
    if |symbols| > 0 {
      var init := symbols[..|symbols| - 1];
      var s := symbols[|symbols| - 1];
      DispatchablePrefix(state, symbols);
      DispatchCollectsKnown(state, registry, logger, init);
      DispatchLastStep(state, registry, logger, symbols);
      var prev := Dispatch(state, registry, logger, init);
      var r := Dispatch(state, registry, logger, symbols);
      assert symbols[..|symbols| - 1] == init;
      if s in Keys(registry) {
        assert Known(symbols, registry) == Known(init, registry) + [s];
        assert Keys(r.result) == Keys(prev.result) + [s];
      } else {
        assert Known(symbols, registry) == Known(init, registry);
      }
    }
  }

  /** Dispatch's result holds, in visiting order, exactly the visited symbols
      that have a registered product, each with that product's orders. */
  lemma {:induction false} DispatchCollectsOrders(state: TradingState, registry: Registry, logger: Logger, symbols: seq<Symbol>)
    requires RegistryWellFormed(registry)
    requires DispatchableSymbols(state, symbols)
    ensures var r := Dispatch(state, registry, logger, symbols);
      && Keys(r.result) == Known(symbols, registry)
      && forall i :: 0 <= i < |r.result| ==> r.result[i].1 == ExpectedOrders(registry, state, r.result[i].0)
  {
    DispatchCollectsKnown(state, registry, logger, symbols);
    if |symbols| > 0 {
      var init := symbols[..|symbols| - 1];
      var s := symbols[|symbols| - 1];
      DispatchablePrefix(state, symbols);
      DispatchCollectsOrders(state, registry, logger, init);
      DispatchLastStep(state, registry, logger, symbols);
      var prev := Dispatch(state, registry, logger, init);
      var r := Dispatch(state, registry, logger, symbols);
      forall i | 0 <= i < |r.result| ensures r.result[i].1 == ExpectedOrders(registry, state, r.result[i].0) {
        if i < |prev.result| {
          assert r.result[i] == prev.result[i];
        }
      }
    }
  }

  lemma DispatchLastStep(state: TradingState, registry: Registry, logger: Logger, symbols: seq<Symbol>)
    requires RegistryWellFormed(registry)
    requires DispatchableSymbols(state, symbols) && |symbols| > 0
    ensures DispatchableSymbols(state, symbols[..|symbols| - 1])
    ensures var s := symbols[|symbols| - 1];
      var prev := Dispatch(state, registry, logger, symbols[..|symbols| - 1]);
      Dispatch(state, registry, logger, symbols).result ==
        if s in Keys(registry) then prev.result + [(s, ExpectedOrders(registry, state, s))] else prev.result
  {
    var init := symbols[..|symbols| - 1];
    var s := symbols[|symbols| - 1];
    DispatchablePrefix(state, symbols);
    DispatchCollectsOrdersKeys(state, registry, logger, init);
    DispatchRefreshesVisited(state, registry, logger, init);
    var prev := Dispatch(state, registry, logger, init);
    var logged := Log(prev.logger, "Processing product: " + s);
    assert Get(prev.registry, s) == Get(registry, s);
    if Get(prev.registry, s).Some? {
      var p := Get(prev.registry, s).value;
      var t := Products.Trade(p, state, logged);
      assert s !in Keys(prev.result);
      TradeGivesExpected(registry, state, s, logged);
    }
  }

  /** Every key of Dispatch's result is a visited symbol. */
  lemma {:induction false} DispatchCollectsOrdersKeys(state: TradingState, registry: Registry, logger: Logger, symbols: seq<Symbol>)
    requires RegistryWellFormed(registry)
    requires DispatchableSymbols(state, symbols)
    ensures forall k :: k in Keys(Dispatch(state, registry, logger, symbols).result) ==> k in symbols
  {
    if |symbols| > 0 {
      var init := symbols[..|symbols| - 1];
      var s := symbols[|symbols| - 1];
      DispatchablePrefix(state, symbols);
      DispatchCollectsOrdersKeys(state, registry, logger, init);
      var prev := Dispatch(state, registry, logger, init);
      var r := Dispatch(state, registry, logger, symbols);
      assert forall k :: k in Keys(r.result) ==> k in Keys(prev.result) || k == s by {
        var logged := Log(prev.logger, "Processing product: " + s);
        if Get(prev.registry, s).Some? {
          var t := Products.Trade(Get(prev.registry, s).value, state, logged);
          assert r.result == Put(prev.result, s, t.orders);
          forall k | k in Keys(r.result) ensures k in Keys(prev.result) || k == s {
            var i :| 0 <= i < |r.result| && Keys(r.result)[i] == k;
            if i < |prev.result| {
              assert Keys(prev.result)[i] == k;
            }
          }
        }
      }
    }
  }

  /** Trading the registered product gives the orders ExpectedOrders names. */
  lemma TradeGivesExpected(registry: Registry, state: TradingState, s: Symbol, logger: Logger)
    requires RegistryWellFormed(registry)
    requires s in Keys(state.orderDepths) && Get(registry, s).Some?
    ensures CanDecide(Get(registry, s).value, state)
    ensures Products.Trade(Get(registry, s).value, state, logger).orders == ExpectedOrders(registry, state, s)
  {
  }

  /** The debug text one visited symbol logs: the "Processing product" line,
      then the order lines of its product, if it has one. */
  function VisitLines(registry: Registry, state: TradingState, s: Symbol): string {
    "Processing product: " + s + "\n" + (if s in Keys(registry) then OrderLines(ExpectedOrders(registry, state, s)) else "")
  }

  /** The debug text a dispatch over `symbols` logs, symbol by symbol. */
  function DispatchLines(registry: Registry, state: TradingState, symbols: seq<Symbol>): string {
    if |symbols| == 0 then ""
    else DispatchLines(registry, state, symbols[..|symbols| - 1]) + VisitLines(registry, state, symbols[|symbols| - 1])
  }

  /** One step of the loop logs exactly the visited symbol's lines. */
  lemma DispatchLogStep(state: TradingState, registry: Registry, logger: Logger, symbols: seq<Symbol>)
    requires RegistryWellFormed(registry)
    requires DispatchableSymbols(state, symbols) && |symbols| > 0
    ensures DispatchableSymbols(state, symbols[..|symbols| - 1])
    ensures Dispatch(state, registry, logger, symbols).logger.logs
         == Dispatch(state, registry, logger, symbols[..|symbols| - 1]).logger.logs + VisitLines(registry, state, symbols[|symbols| - 1])
  {
    DispatchablePrefix(state, symbols);
    if symbols[|symbols| - 1] in Keys(registry) {
      DispatchLogStepRegistered(state, registry, logger, symbols);
    } else {
      DispatchLogStepUnregistered(state, registry, logger, symbols);
    }
  }

  lemma DispatchLogStepRegistered(state: TradingState, registry: Registry, logger: Logger, symbols: seq<Symbol>)
    requires RegistryWellFormed(registry)
    requires DispatchableSymbols(state, symbols) && |symbols| > 0
    requires DispatchableSymbols(state, symbols[..|symbols| - 1])
    requires symbols[|symbols| - 1] in Keys(registry)
    ensures Dispatch(state, registry, logger, symbols).logger.logs
         == Dispatch(state, registry, logger, symbols[..|symbols| - 1]).logger.logs + VisitLines(registry, state, symbols[|symbols| - 1])
  {
    var init := symbols[..|symbols| - 1];
    var s := symbols[|symbols| - 1];
    LastNotYetVisited(state, registry, logger, symbols);
    var prev := Dispatch(state, registry, logger, init);
    var logged := Log(prev.logger, "Processing product: " + s);
    var visit := "Processing product: " + s + "\n";
    var lines := OrderLines(ExpectedOrders(registry, state, s));
    TradeLogsExpected(registry, state, s, logged);
    assert logged.logs == prev.logger.logs + visit;
    ConcatAssoc(prev.logger.logs, visit, lines);
  }

  /** Before the last visit, the last symbol's registry entry is untouched. */
  lemma LastNotYetVisited(state: TradingState, registry: Registry, logger: Logger, symbols: seq<Symbol>)
    requires RegistryWellFormed(registry)
    requires DispatchableSymbols(state, symbols) && |symbols| > 0
    requires DispatchableSymbols(state, symbols[..|symbols| - 1])
    ensures Get(Dispatch(state, registry, logger, symbols[..|symbols| - 1]).registry, symbols[|symbols| - 1])
         == Get(registry, symbols[|symbols| - 1])
  {
    DispatchRefreshesVisited(state, registry, logger, symbols[..|symbols| - 1]);
  }

  /** A registered product with a book logs exactly its expected orders' lines. */
  lemma TradeLogsExpected(registry: Registry, state: TradingState, s: Symbol, logger: Logger)
    requires RegistryWellFormed(registry)
    requires s in Keys(state.orderDepths) && Get(registry, s).Some?
    ensures CanDecide(Get(registry, s).value, state)
    ensures Products.Trade(Get(registry, s).value, state, logger).logger.logs
         == logger.logs + OrderLines(ExpectedOrders(registry, state, s))
  {
    TradeGivesExpected(registry, state, s, logger);
  }

  lemma DispatchLogStepUnregistered(state: TradingState, registry: Registry, logger: Logger, symbols: seq<Symbol>)
    requires RegistryWellFormed(registry)
    requires DispatchableSymbols(state, symbols) && |symbols| > 0
    requires DispatchableSymbols(state, symbols[..|symbols| - 1])
    requires symbols[|symbols| - 1] !in Keys(registry)
    ensures Dispatch(state, registry, logger, symbols).logger.logs
         == Dispatch(state, registry, logger, symbols[..|symbols| - 1]).logger.logs + VisitLines(registry, state, symbols[|symbols| - 1])
  {
    var s := symbols[|symbols| - 1];
    LastNotYetVisited(state, registry, logger, symbols);
    var visit := "Processing product: " + s + "\n";
    assert visit + "" == visit;
  }

  /** Dispatch appends to the buffer exactly the lines `DispatchLines` lists. */
  lemma {:induction false} DispatchLogs(state: TradingState, registry: Registry, logger: Logger, symbols: seq<Symbol>)
    requires RegistryWellFormed(registry)
    requires DispatchableSymbols(state, symbols)
    ensures Dispatch(state, registry, logger, symbols).logger.logs == logger.logs + DispatchLines(registry, state, symbols)
  {
    if |symbols| > 0 {
      var init := symbols[..|symbols| - 1];
      DispatchLogStep(state, registry, logger, symbols);
      DispatchLogs(state, registry, logger, init);
      ConcatAssoc(logger.logs, DispatchLines(registry, state, init), VisitLines(registry, state, symbols[|symbols| - 1]));
    } else {
      assert logger.logs + "" == logger.logs;
    }
  }

  datatype RunOutcome = RunOutcome(
    orders: Dict<Symbol, seq<Order>>,
    conversions: int,
    traderData: string,
    registry: Registry,
    logger: Logger,
    line: Envelope)

  /** One tick: orders for every registered symbol of the book, one
      conversion, empty trader data, and the flushed telemetry line. */
  function Run(registry: Registry, logger: Logger, state: TradingState, encodedLength: Envelope -> nat): (r: RunOutcome)
    requires RegistryWellFormed(registry)
    requires DistinctKeys(state.orderDepths)
    ensures r.conversions == 1 && r.traderData == ""
    ensures Keys(r.orders) == Known(Keys(state.orderDepths), registry)
    ensures DistinctKeys(r.orders)
    ensures forall i :: 0 <= i < |r.orders| ==> r.orders[i].1 == ExpectedOrders(registry, state, r.orders[i].0)
    ensures forall k :: Get(r.registry, k) == if k in Keys(state.orderDepths) then Refresh(Get(registry, k), state) else Get(registry, k)
    ensures RegistryWellFormed(r.registry) && Keys(r.registry) == Keys(registry)
    ensures r.logger.logs == "" && r.logger.maxLogLength == logger.maxLogLength
    ensures r.line.1 == CompressOrders(r.orders) && r.line.2 == 1
    ensures SameStructure(r.line, BaseEnvelope(state, r.orders, 1))
    ensures var m := ItemBudget(logger.maxLogLength, encodedLength(BaseEnvelope(state, r.orders, 1)));
      && r.line.0.1 == Truncate(state.traderData, m)
      && r.line.3 == Truncate("", m)
      && r.line.4 == Truncate(logger.logs + DispatchLines(registry, state, Keys(state.orderDepths)), m)
  {
    var symbols := Keys(state.orderDepths);
    var d := Dispatch(state, registry, logger, symbols);
    DispatchRefreshesVisited(state, registry, logger, symbols);
    DispatchCollectsOrders(state, registry, logger, symbols);
    DispatchLogs(state, registry, logger, symbols);
    assert DistinctKeys(d.result) by {
      forall i, j | 0 <= i < j < |d.result| ensures d.result[i].0 != d.result[j].0 {
        assert Keys(d.result)[i] == d.result[i].0 && Keys(d.result)[j] == d.result[j].0;
      }
    }
    var conversions := 1;
    var traderData := "";
    var f := Flush(d.logger, state, d.result, conversions, traderData, encodedLength);
    RunOutcome(d.result, conversions, traderData, d.registry, f.logger, f.line)
  }

  lemma InitialRegistryWellFormed()
    ensures RegistryWellFormed(InitialRegistry())
    ensures DistinctKeys(InitialRegistry())
  {
  }

  /** Every tick leaves the module-level logger as it was first created: an
      empty buffer and the 3750-character ceiling. */
  lemma RunRestoresLogger(registry: Registry, logger: Logger, state: TradingState, encodedLength: Envelope -> nat)
    requires RegistryWellFormed(registry)
    requires DistinctKeys(state.orderDepths)
    requires logger.maxLogLength == MaxLogLength
    ensures Run(registry, logger, state, encodedLength).logger == NewLogger()
  {
  }

  /** With the agent's own registry the result holds exactly the tick's
      RAINFOREST_RESIN and KELP books; every other symbol is skipped. */
  lemma RunSkipsUnregistered(logger: Logger, state: TradingState, encodedLength: Envelope -> nat)
    requires DistinctKeys(state.orderDepths)
    ensures RegistryWellFormed(InitialRegistry())
    ensures var r := Run(InitialRegistry(), logger, state, encodedLength);
      forall x :: x in Keys(r.orders) <==> x in Keys(state.orderDepths) && (x == "RAINFOREST_RESIN" || x == "KELP")
  {
    InitialRegistryWellFormed();
    KnownInInitialRegistry(Keys(state.orderDepths));
  }

  lemma KnownInInitialRegistry(symbols: seq<Symbol>)
    ensures forall x :: x in Known(symbols, InitialRegistry()) <==> x in symbols && (x == "RAINFOREST_RESIN" || x == "KELP")
  {
    assert Keys(InitialRegistry()) == ["RAINFOREST_RESIN", "KELP"];
  }

  /** The inventory bound for one registered symbol whose book is well formed
      and whose refreshed position is within the limit. */
  lemma ExpectedOrdersWithinLimits(registry: Registry, state: TradingState, k: Symbol)
    requires RegistryWellFormed(registry)
    requires k in Keys(registry) && k in Keys(state.orderDepths)
    requires WellFormedDepth(Lookup(state.orderDepths, k))
    requires var p := Update(Lookup(registry, k), state); -p.limit <= p.position <= p.limit
    ensures var p := Update(Lookup(registry, k), state);
      && p.position + LongExposure(ExpectedOrders(registry, state, k)) <= p.limit
      && p.position + ShortExposure(ExpectedOrders(registry, state, k)) >= -p.limit
  {
    var p := Update(Lookup(registry, k), state);
    WorstCaseFillWithinLimit(p, state);
  }

  /** The inventory bound for a whole tick: when every registered product's
      refreshed position is within its limit and every book is well formed,
      no symbol's orders can push its position out of [-limit, limit]. */
  lemma RunWithinLimits(registry: Registry, logger: Logger, state: TradingState, encodedLength: Envelope -> nat)
    requires RegistryWellFormed(registry)
    requires DistinctKeys(state.orderDepths)
    requires forall i :: 0 <= i < |state.orderDepths| ==> WellFormedDepth(state.orderDepths[i].1)
    requires forall i :: 0 <= i < |registry| ==>
      -registry[i].1.limit <= Update(registry[i].1, state).position <= registry[i].1.limit
    ensures var r := Run(registry, logger, state, encodedLength);
      forall i :: 0 <= i < |r.orders| ==>
        var p := Update(Lookup(registry, r.orders[i].0), state);
        && p.position + LongExposure(r.orders[i].1) <= p.limit
        && p.position + ShortExposure(r.orders[i].1) >= -p.limit
  {
    var r := Run(registry, logger, state, encodedLength);
    CollectedOrdersWithinLimits(registry, state, r.orders);
  }

  lemma CollectedOrdersWithinLimits(registry: Registry, state: TradingState, orders: Dict<Symbol, seq<Order>>)
    requires RegistryWellFormed(registry)
    requires forall i :: 0 <= i < |state.orderDepths| ==> WellFormedDepth(state.orderDepths[i].1)
    requires forall i :: 0 <= i < |registry| ==>
      -registry[i].1.limit <= Update(registry[i].1, state).position <= registry[i].1.limit
    requires forall x :: x in Keys(orders) ==> x in Keys(state.orderDepths) && x in Keys(registry)
    requires forall i :: 0 <= i < |orders| ==> orders[i].1 == ExpectedOrders(registry, state, orders[i].0)
    ensures forall i :: 0 <= i < |orders| ==>
      var p := Update(Lookup(registry, orders[i].0), state);
      && p.position + LongExposure(orders[i].1) <= p.limit
      && p.position + ShortExposure(orders[i].1) >= -p.limit
  {
    forall i | 0 <= i < |orders|
      ensures var p := Update(Lookup(registry, orders[i].0), state);
        && p.position + LongExposure(orders[i].1) <= p.limit
        && p.position + ShortExposure(orders[i].1) >= -p.limit
    {
      var k := orders[i].0;
      assert k == Keys(orders)[i];
      var j :| 0 <= j < |registry| && registry[j].0 == k && registry[j].1 == Lookup(registry, k);
      var m :| 0 <= m < |state.orderDepths| && state.orderDepths[m].0 == k && state.orderDepths[m].1 == Lookup(state.orderDepths, k);
      ExpectedOrdersWithinLimits(registry, state, k);
    }
  }
}

=== FILE: wrappers.dfy ===
/** Optional values: the outcome of a dictionary lookup that may miss. */
module Wrappers {

  datatype Option<T> = None | Some(value: T) {

    /** The held value, or `fallback` when there is none (Python's `d.get(k, fallback)`). */
    function GetOr(fallback: T): T {
      if Some? then value else fallback
    }
  }
}
